=== FILE: README.md ===
# pdf-to-anki: a Dafny model of the fact parser, card parser and deck packager

The application turns a PDF into an Anki deck in three stages. First, a
language model extracts up to fifteen "high-yield" facts from the PDF's text.
Second, a language model turns those facts into cloze-deletion cards
(`{{c1::…}}`). Third, the cards are validated and packaged into a zip archive
with three JSON members.

This project models the deterministic code between those steps:

- **Fact parser.** Splits the model's reply into lines, strips a leading
  ordinal marker (`^\d+[.)\-\s]+`), trims, keeps lines longer than five
  UTF-16 code units, ids each fact by its line index, and keeps the first 15.
- **Prompt numbering.** Lists the facts as `1. …`, `2. …` for the second
  prompt.
- **Card parser.** Slices the reply from the first `[` to the last `]`,
  decodes it, and builds a `ClozeCard` from every element with a truthy
  `front` and `back`.
- **Validator.** `validateCards`, with its per-card error messages.
- **Deck packager.** `generateDeck` and `generateAnkiPackage`: note records,
  the `collection.json` / `media` / `notes.json` members, and the default
  deck name.

Files:

- `wrappers.dfy`: `Option` and `Result`.
- `text.dfy`: the JavaScript string operations the code relies on.
  - `trim()` over the ECMAScript whitespace and line-terminator set.
  - `includes`, `indexOf`, `lastIndexOf`.
  - `split("\n")` and `join`.
  - `String(n)` for naturals.
  - `length` in UTF-16 code units.
- `types.dfy`: `HighYieldPoint` and `ClozeCard`.
- `selection.dfy`: generic filter loops: the indices a predicate keeps, a filter-map, the longest prefix, and `slice(0, n)`.
- `llm_service.dfy`: the fact parser, the prompt numbering and the card parser.
- `anki_generator.dfy`: the validator and the packager.

The inputs that are not code are parameters:

- The model's reply text.
- `JSON.parse`: a `decode` function from the slice to an optional array of elements. `None` means it threw.
- `Date.now()`: a natural `nowMillis`.

Behaviour of the code worth knowing:

- **A `null` array element.** Reading `item.front` on it throws inside the
  `try`. The cards already pushed survive, because `cards` is declared
  outside the `try`. So the result is the cards before the first `null`
  (`LlmService.BuildCards`).
- **`collection.json`.** It holds `decks`, `dconf`, `models` and `col`. The
  notes appear only in `notes.json`.
- **Note fields.** The zeroed scheduling fields of a note are `type`,
  `queue`, `left`, `odue`, `odid`, `omod`, `csum` and `flags`.
- **The field separator.** The fields of a note are the front, 0x1F and the
  back, with no escaping. A front that itself holds 0x1F makes the fields
  ambiguous (`AnkiGenerator.SeparatorInFrontIsAmbiguous`).
- **The deck name.** It falls back to the default only when it is omitted.
  An empty string passed explicitly is kept.

## Model

| member | source | states |
|---|---|---|
| Text.Trim | src/lib/llm-service.ts:119-121 | `trim()` is no longer than the line, leaves no whitespace at either end, and is empty exactly when the line is all whitespace |
| Text.TrimSlice | src/lib/llm-service.ts:121 | `trim()` is a slice of the line with only whitespace before and after it, so it removes only whitespace |
| Text.TrimUnique | src/lib/llm-service.ts:121 | any split of a line into whitespace, a middle with no whitespace at its ends, and whitespace has that middle as its trim |
| Text.TrimIdempotent | src/lib/llm-service.ts:121 | trimming a trimmed string changes nothing, so a cleaned fact is already trimmed |
| Text.ContainsOccurrence | src/lib/anki-generator.ts:52-54 | `includes` holds exactly when the substring occurs at some index |
| Text.IndexOf | src/lib/llm-service.ts:173 | `indexOf` is -1 exactly when the character is absent, otherwise the index of its first occurrence |
| Text.LastIndexOf | src/lib/llm-service.ts:174 | `lastIndexOf` is -1 exactly when the character is absent, otherwise the index of its last occurrence |
| Text.Split | src/lib/llm-service.ts:114 | `split("\n")` gives at least one piece and no piece contains a line break |
| Text.JoinSplit | src/lib/llm-service.ts:114 | joining the pieces of a split with the separator gives back the reply |
| Text.SplitJoin | src/lib/llm-service.ts:140-142 | splitting a join of separator-free pieces gives back the pieces |
| Text.NatToString | src/lib/llm-service.ts:123 | `String(i)` is a non-empty digit string whose first digit is 0 only when `i` is zero |
| Text.DecimalOfNatToString | src/lib/llm-service.ts:123 | reading `String(i)` back as a decimal gives `i` |
| Text.NatToStringInjective | src/lib/anki-generator.ts:163-164 | different numbers have different numerals |
| Text.Utf16Length | src/lib/llm-service.ts:122 | a string's `length` lies between its number of code points and twice that |
| Selection.Selected | src/lib/llm-service.ts:117-127 | the kept indices are in range, strictly increasing, and include every index the guard accepts |
| Selection.Collect | src/lib/llm-service.ts:117-127 | the filter-and-push loop (also llm-service.ts:180-190) pushes at most one value per element; `Selection.CollectSelected` states which |
| Selection.CollectSelected | src/lib/llm-service.ts:117-127 | the filter loop pushes exactly one value per kept index, in index order |
| Selection.Take | src/lib/llm-service.ts:130 | `slice(0, n)` is a prefix of length `min(n, length)` |
| LlmService.MarkerLength | src/lib/llm-service.ts:121 | the removed prefix matches `\d+[.)\-\s]+` and no longer prefix does |
| LlmService.StripMarker | src/lib/llm-service.ts:121 | the result is a suffix of the line, the removed part is a marker, and the marker removed is the longest one |
| LlmService.CleanLine | src/lib/llm-service.ts:121 | definition: strip the ordinal marker, then trim; stated by `LlmService.AcceptedLineIsFactText` and `LlmService.NumberedLineCleans` |
| LlmService.Accepts | src/lib/llm-service.ts:119-122 | definition: the line is not blank and its cleaned text is longer than five code units; stated by `LlmService.ParseFactsFirstAccepted` |
| LlmService.AcceptedLineIsFactText | src/lib/llm-service.ts:119-123 | an accepted line's cleaned text is trimmed and longer than five code units |
| LlmService.ParseFacts | src/lib/llm-service.ts:113-130 | at most 15 facts, each trimmed and longer than five code units |
| LlmService.ParseFactsFirstAccepted | src/lib/llm-service.ts:113-130 | the facts are those of the first 15 accepted lines, in line order, each with its line's cleaned text |
| LlmService.FactIdsIncrease | src/lib/llm-service.ts:123 | fact ids are decimal line indices and strictly increase |
| LlmService.BlankLineGivesNoFact | src/lib/llm-service.ts:119 | no fact carries the index of a blank line |
| LlmService.ShortRepliesGiveNoFacts | src/lib/llm-service.ts:122 | a reply with no line longer than five code units after cleaning gives an empty list, not an error |
| LlmService.NumberedPoints | src/lib/llm-service.ts:140-142 | the numbered list is empty exactly when there are no facts |
| LlmService.NumberedPointsLines | src/lib/llm-service.ts:140-142 | for a non-empty list of facts without line breaks, the numbered list splits into one line per fact, line `i` being `i+1`, `". "` and the fact (the empty list gives `""`, which splits into one empty line) |
| LlmService.NumberedLineCleans | src/lib/llm-service.ts:121 | for a trimmed fact longer than five code units that does not start with `.`, `)`, `-` or whitespace, cleaning its numbered line gives back the fact, and the parser accepts the line |
| LlmService.ParseNumberedPoints | src/lib/llm-service.ts:140-142 | for at most 15 facts, each trimmed, longer than five code units, without line breaks and not starting with `.`, `)`, `-` or whitespace, parsing the numbered list gives back the texts in order, with ids renumbered to their positions |
| LlmService.JsonSlice | src/lib/llm-service.ts:173-177 | the slice is absent exactly when no `[` is followed by a `]`; otherwise it runs from the first `[` to the last `]` |
| LlmService.JsonSliceIgnoresProse | src/lib/llm-service.ts:172-177 | bracket-free prose before and after the array is cut off |
| LlmService.BuildCards | src/lib/llm-service.ts:180-190 | at most one card per element; every card has a non-empty front and back and copies back into explanation |
| LlmService.BuildCardsIsCollect | src/lib/llm-service.ts:180-190 | up to the first `null` the card loop is a filter-and-map; the `null` ends it |
| LlmService.BuildCardsSelected | src/lib/llm-service.ts:180-190 | the cards are exactly the elements with a front and a back before the first `null`, in order, id = array index |
| LlmService.ParseCards | src/lib/llm-service.ts:170-198 | a missing slice or a failed decode gives no cards and never an error; every card is well-formed |
| LlmService.ParseCardsSelected | src/lib/llm-service.ts:170-198 | once the slice decodes, the cards are the selected elements, in array order |
| AnkiGenerator.NewGenerator | src/lib/anki-generator.ts:34-38 | an omitted deck name becomes "PDF Study Deck"; the deck and model ids are the fixed constants |
| AnkiGenerator.Message | src/lib/anki-generator.ts:44-62 | definition: the three report strings; stated by `AnkiGenerator.MessageInjective` and `AnkiGenerator.EmptyDeckRejected` |
| AnkiGenerator.HasClozeMarker | src/lib/anki-generator.ts:52-55 | definition: a non-empty front containing `{{c` or `{c`; stated by `AnkiGenerator.ClozeMarkerIsSingleBrace` |
| AnkiGenerator.CardProblems | src/lib/anki-generator.ts:48-64 | a card is reported as missing its marker exactly when its front has none, and as missing its answer exactly when its back is blank, marker first |
| AnkiGenerator.Problems | src/lib/anki-generator.ts:48-64 | the problems are in card order, at most two per card, marker problem first, each naming a 1-based card position in range |
| AnkiGenerator.ProblemsNameFaults | src/lib/anki-generator.ts:48-64 | card `i+1` is named as missing its marker exactly when its front has none, and as missing its answer exactly when its back is blank |
| AnkiGenerator.ValidateCards | src/lib/anki-generator.ts:40-67 | an empty list gives only "No cards provided"; the result is valid exactly when there are no errors; at most twice as many errors as cards (`AnkiGenerator.ValidationReportOrder` orders them by card) |
| AnkiGenerator.ValidIffAllCardsValid | src/lib/anki-generator.ts:40-67 | a list passes exactly when it is non-empty and every card has a marker and a non-blank back |
| AnkiGenerator.NoProblemsIffValid | src/lib/anki-generator.ts:48-66 | there are no problems exactly when every card is valid |
| AnkiGenerator.MessageInReport | src/lib/anki-generator.ts:48-66 | a message is in the report of a non-empty list exactly when its problem is among the cards' problems |
| AnkiGenerator.ClozeMarkerIsSingleBrace | src/lib/anki-generator.ts:52-55 | the marker test amounts to "the front contains `{c`" |
| AnkiGenerator.MessageInjective | src/lib/anki-generator.ts:44-62 | different problems have different messages |
| AnkiGenerator.ValidationReportsEachCard | src/lib/anki-generator.ts:48-64 | the message for card `i+1` is in the report exactly when that card has the fault |
| AnkiGenerator.ValidationReportOrder | src/lib/anki-generator.ts:48-66 | every message of a non-empty list's report names a card in range, and an earlier message names an earlier card, or the same card with the marker problem before the answer problem |
| AnkiGenerator.NoteFor | src/lib/anki-generator.ts:163-185 | definition: the note of one card; stated by `AnkiGenerator.NotesMirrorCards` and `AnkiGenerator.NoteIdsAndGuids` |
| AnkiGenerator.BuildNotes | src/lib/anki-generator.ts:160-188 | one note per card |
| AnkiGenerator.NotesMirrorCards | src/lib/anki-generator.ts:166-185 | a note's sort field is the front; when the front has no 0x1F, splitting its fields at the first 0x1F gives back front and back; it is in the model and the deck, and unscheduled |
| AnkiGenerator.SeparatorInFrontIsAmbiguous | src/lib/anki-generator.ts:173 | the separator is not escaped: the cards (`a` 0x1F `b`, `c`) and (`a`, `b` 0x1F `c`) get the same fields |
| AnkiGenerator.NoteIdsAndGuids | src/lib/anki-generator.ts:163-168 | note ids are `deckId + i + 1`, strictly increasing, and the guids are distinct |
| AnkiGenerator.NotesIgnoreTime | src/lib/anki-generator.ts:160-188 | notes built at different times differ only in `mod` |
| AnkiGenerator.CollectionFor | src/lib/anki-generator.ts:82-224 | definition: the `collection.json` document; stated by `AnkiGenerator.PackageContents` |
| AnkiGenerator.Archive | src/lib/anki-generator.ts:226-238 | the archive holds `collection.json`, `media` and `notes.json`, in the order they are added, with the collection, an empty media map and the notes |
| AnkiGenerator.GenerateDeck | src/lib/anki-generator.ts:69-238 | fails exactly when validation fails, with the errors joined by ", "; otherwise the members are collection.json, an empty media map, and one note per card |
| AnkiGenerator.GenerateAnkiPackage | src/lib/anki-generator.ts:248-254 | packaging fails exactly when validation fails |
| AnkiGenerator.PackageContents | src/lib/anki-generator.ts:79-238 | the deck carries the requested or default name and the fixed id; the collection is stamped with the time in whole seconds; notes.json holds the cards' notes |
| AnkiGenerator.EmptyDeckRejected | src/lib/anki-generator.ts:73-76 | an empty card list is rejected with "Card validation failed: No cards provided" |
| AnkiGenerator.SingleCardExample | src/lib/anki-generator.ts:52-185 | a single well-formed card packages under the default name into one note whose fields are front, 0x1F, back |

## Left out

- The completion request (`makeRequest`, the endpoint, the key, the model settings) and the prompt texts: network I/O. The reply text is an input.
- The JSON grammar. `JSON.parse` is the `decode` parameter, and an array element is seen only through its `front` and `back`.
- Non-string truthy `front` or `back` values, such as numbers or objects. These would be copied into cards as they are. A `string` field cannot hold them, so only strings are modelled: the empty string for every falsy or missing value.
- The JSON value kinds other than an array: the slice starts with `[`, so `JSON.parse` either throws (`decode` returns `None`) or returns an array.
- Zip compression, `Buffer`, `Blob` and `JSON.stringify`: byte-level encoding. The members are structured values.
- `Date.now()`: the clock is the `nowMillis` parameter.
- Logging (`console.log`, `console.error`): no observable effect on results.
- Fields not modelled:
  - The deck's `lrnToday`/`revToday`/`newToday`/`timeToday` counters and collapse flags.
  - The model's LaTeX preamble and `latexPost`, `latexsvg`, CSS and `req`.
  - The fields' `sticky`, `rtl`, `font`, `media` and `size`.
  - The template's `did`, `bafmt` and `bqfmt`.
  - The fractional scheduling parameters (`mult`, `ease4`, `hardPenalty`), `separate`, `timer`, `autoplay` and `replayq`.
  - These are fixed literals, and the floating-point values have no counterpart here.
- A card whose `front` is missing or `null`. `validateCards` calls `card.front.includes(...)` before it tests `!card.front`, so such a card throws a `TypeError` instead of being reported as missing its cloze marker. A `string` field cannot be missing, so the model has no such card.
- Lone UTF-16 surrogates. A string is a sequence of Unicode scalar values, so a JavaScript string holding an unpaired surrogate has no counterpart.
- JavaScript number precision: ids and times are unbounded naturals. The ids involved stay far below 2^53.
- The PDF text extraction, React hooks, API routes and the page: not part of this model.

=== FILE: anki_generator.dfy ===
/** The card validator and the deck packager of `anki-generator.ts`.
    The package is the project's own substitute container, not Anki's
    SQLite collection: three JSON members, modelled here as structured
    values rather than bytes. The current time is an input. */
module AnkiGenerator {
  import opened Wrappers
  import opened Text
  import opened Types

  /** The deck name when the caller gives none. */
  const DefaultDeckName: string := "PDF Study Deck"

  /** The fixed deck and model identifiers of every generator. */
  const DeckId: nat := 1684567890
  const ModelId: nat := 1684567891

  /** Every note's guid is this prefix followed by the note id. */
  const GuidPrefix: string := "pdf-anki-"

  /** The ASCII unit separator (0x1F) between the fields of a note. */
  const FieldSeparator: char := '\U{001F}'

  const NoteTags: string := "pdf-to-anki"

  /** Prefix of the error `generateDeck` throws when validation fails. */
  const ValidationFailedPrefix: string := "Card validation failed: "

  /** The archive member names, in the order they are added. */
  const CollectionMember: string := "collection.json"
  const MediaMember: string := "media"
  const NotesMember: string := "notes.json"

  /** An `AnkiGenerator` instance. */
  datatype Generator = Generator(deckName: string, deckId: nat, modelId: nat)

  /** `new AnkiGenerator(deckName)`; `None` is an omitted argument, which
      takes the default name. */
  function NewGenerator(deckName: Option<string>): (g: Generator)
    ensures g.deckId == DeckId && g.modelId == ModelId
    ensures deckName.Some? ==> g.deckName == deckName.value
    ensures deckName.None? ==> g.deckName == DefaultDeckName
  {
    match deckName
    case Some(name) => Generator(name, DeckId, ModelId)
    case None => Generator(DefaultDeckName, DeckId, ModelId)
  }

  // ---------------------------------------------------------------------------
  // validateCards

  /** One problem `validateCards` reports; `card` is 1-based. */
  datatype CardError = NoCards | MissingCloze(card: nat) | MissingAnswer(card: nat)

  /** The text after the card number; each starts with a colon, which no
      numeral contains. A long string literal is one opaque constant to the
      verifier, so the colon is split off to let proofs index into it. */
  const ClozeReason: string := ":" + " Missing cloze deletion marker ({{c1::text}} format)"
  const AnswerReason: string := ":" + " Missing explanation/answer"

  /** The message pushed for a problem. */
  function Message(e: CardError): string {
    match e
    case NoCards => "No cards provided"
    case MissingCloze(n) => "Card " + NatToString(n) + ClozeReason
    case MissingAnswer(n) => "Card " + NatToString(n) + AnswerReason
  }

  /** The position of a problem in the report: by card, the cloze problem
      before the answer problem. */
  function Rank(e: CardError): nat {
    match e
    case NoCards => 0
    case MissingCloze(n) => 2 * n
    case MissingAnswer(n) => 2 * n + 1
  }

  /** `card.front && (card.front.includes("{{c") || card.front.includes("{c"))`. */
  predicate HasClozeMarker(front: string) {
    front != [] && (Contains(front, "{{c") || Contains(front, "{c"))
  }

  /** A card `validateCards` finds nothing wrong with. */
  predicate IsValidCard(card: ClozeCard) {
    HasClozeMarker(card.front) && !IsBlank(card.back)
  }

  /** The problems of the card at position `i`: the missing marker, then
      the missing answer. */
  function CardProblems(i: nat, card: ClozeCard): (r: seq<CardError>)
    ensures |r| <= 2
    ensures forall k :: 0 <= k < |r| ==> !r[k].NoCards? && r[k].card == i + 1
    ensures forall k, l :: 0 <= k < l < |r| ==> Rank(r[k]) < Rank(r[l])
    ensures MissingCloze(i + 1) in r <==> !HasClozeMarker(card.front)
    ensures MissingAnswer(i + 1) in r <==> IsBlank(card.back)
  {
    (if !HasClozeMarker(card.front) then [MissingCloze(i + 1)] else [])
    + (if IsBlank(card.back) then [MissingAnswer(i + 1)] else [])
  }

  /** The problems of cards `from` onwards, in the order the loop pushes
      them. */
  function Problems(cards: seq<ClozeCard>, from: nat): (r: seq<CardError>)
    requires from <= |cards|
    ensures |r| <= 2 * (|cards| - from)
    ensures forall k :: 0 <= k < |r| ==> !r[k].NoCards? && from < r[k].card <= |cards|
    ensures forall k, l :: 0 <= k < l < |r| ==> Rank(r[k]) < Rank(r[l])
    decreases |cards| - from
  {
    if from == |cards| then []
    else
      var here := CardProblems(from, cards[from]);
      var rest := Problems(cards, from + 1);
      ProblemsAppend(here, rest, from, |cards|);
      here + rest
  }

  /** The problems name card `i + 1` as missing its marker exactly when its
      front has none, and as missing its answer exactly when its back is
      blank. */
  lemma {:induction false} ProblemsNameFaults(cards: seq<ClozeCard>, from: nat, i: nat)
    requires from <= i < |cards|
    ensures MissingCloze(i + 1) in Problems(cards, from) <==> !HasClozeMarker(cards[i].front)
    ensures MissingAnswer(i + 1) in Problems(cards, from) <==> IsBlank(cards[i].back)
    decreases |cards| - from
  {
    var here := CardProblems(from, cards[from]);
    var rest := Problems(cards, from + 1);
    assert Problems(cards, from) == here + rest;
    if from < i {
      ProblemsNameFaults(cards, from + 1, i);
      assert MissingCloze(i + 1) !in here && MissingAnswer(i + 1) !in here;
    } else {
      assert MissingCloze(i + 1) !in rest && MissingAnswer(i + 1) !in rest;
    }
  }

  /** Joining the problems of card `from + 1` to those of the later cards
      keeps them in order and in range, and keeps them apart. */
  lemma ProblemsAppend(here: seq<CardError>, rest: seq<CardError>, from: nat, n: nat)
    requires from < n
    requires |here| <= 2 && |rest| <= 2 * (n - from - 1)
    requires forall k :: 0 <= k < |here| ==> !here[k].NoCards? && here[k].card == from + 1
    requires forall k, l :: 0 <= k < l < |here| ==> Rank(here[k]) < Rank(here[l])
    requires forall k :: 0 <= k < |rest| ==> !rest[k].NoCards? && from + 1 < rest[k].card <= n
    requires forall k, l :: 0 <= k < l < |rest| ==> Rank(rest[k]) < Rank(rest[l])
    ensures |here + rest| <= 2 * (n - from)
    ensures forall k :: 0 <= k < |here + rest| ==> !(here + rest)[k].NoCards? && from < (here + rest)[k].card <= n
    ensures forall k, l :: 0 <= k < l < |here + rest| ==> Rank((here + rest)[k]) < Rank((here + rest)[l])
    ensures forall e :: e in here ==> e.card == from + 1
    ensures forall e :: e in rest ==> e.card != from + 1
  {
    var all := here + rest;
    forall k | 0 <= k < |all| ensures !all[k].NoCards? && from < all[k].card <= n {
      if k >= |here| {
        assert all[k] == rest[k - |here|];
      }
    }
    forall k, l | 0 <= k < l < |all| ensures Rank(all[k]) < Rank(all[l]) {
      if l >= |here| && k < |here| {
        assert all[l] == rest[l - |here|];
      }
    }
  }

  /** The result of `validateCards`. */
  datatype Validation = Validation(valid: bool, errors: seq<string>)

  /** `validateCards`: an empty list is the single error "No cards
      provided"; otherwise every card is checked, in order. */
  function ValidateCards(cards: seq<ClozeCard>): (v: Validation)
    ensures |cards| == 0 ==> v == Validation(false, ["No cards provided"])
    ensures v.valid <==> v.errors == []
    ensures |cards| > 0 ==> |v.errors| <= 2 * |cards|
  {
    if |cards| == 0 then Validation(false, [Message(NoCards)])
    else
      var problems := Problems(cards, 0);
      Validation(|problems| == 0, seq(|problems|, k requires 0 <= k < |problems| => Message(problems[k])))
  }

  /** A list passes validation exactly when it is non-empty and every
      card has a cloze marker and a non-blank back. */
  lemma ValidIffAllCardsValid(cards: seq<ClozeCard>)
    ensures ValidateCards(cards).valid <==> |cards| > 0 && forall i :: 0 <= i < |cards| ==> IsValidCard(cards[i])
  {
    if |cards| > 0 {
      NoProblemsIffValid(cards);
    }
  }

  /** A list has no problems exactly when every card is valid. */
  lemma NoProblemsIffValid(cards: seq<ClozeCard>)
    ensures Problems(cards, 0) == [] <==> forall i :: 0 <= i < |cards| ==> IsValidCard(cards[i])
  {
    var problems := Problems(cards, 0);
    if problems != [] {
      var e := problems[0];
      var i := e.card - 1;
      ProblemsNameFaults(cards, 0, i);
      assert e in problems;
      assert e == MissingCloze(i + 1) || e == MissingAnswer(i + 1);
      assert !IsValidCard(cards[i]);
    } else {
      forall i | 0 <= i < |cards| ensures IsValidCard(cards[i]) {
        ProblemsNameFaults(cards, 0, i);
      }
    }
  }

  /** Since `"{{c"` contains `"{c"`, the marker test is "the front
      contains `{c`". */
  lemma ClozeMarkerIsSingleBrace(front: string)
    ensures HasClozeMarker(front) <==> Contains(front, "{c")
  {
    if Contains(front, "{{c") {
      DoubleBraceHasSingleBrace(front);
    }
  }

  lemma {:induction false} DoubleBraceHasSingleBrace(s: string)
    requires Contains(s, "{{c")
    ensures Contains(s, "{c")
    decreases |s|
  {
    if "{{c" <= s {
      assert "{c" <= s[1..];
    } else {
      DoubleBraceHasSingleBrace(s[1..]);
    }
  }

  /** Different problems have different messages, so the report can be
      read back. */
  lemma MessageInjective(a: CardError, b: CardError)
    requires Message(a) == Message(b)
    ensures a == b
  {
    match a
    case NoCards =>
    case MissingCloze(m) =>
      if !b.NoCards? {
        var reason := if b.MissingCloze? then ClozeReason else AnswerReason;
        CardNumbersMatch(NatToString(m), ClozeReason, NatToString(b.card), reason);
        NatToStringInjective(m, b.card);
      }
    case MissingAnswer(m) =>
      if !b.NoCards? {
        var reason := if b.MissingCloze? then ClozeReason else AnswerReason;
        CardNumbersMatch(NatToString(m), AnswerReason, NatToString(b.card), reason);
        NatToStringInjective(m, b.card);
      }
  }

  lemma CardNumbersMatch(d1: string, r1: string, d2: string, r2: string)
    requires AllDigits(d1) && AllDigits(d2)
    requires r1 in {ClozeReason, AnswerReason} && r2 in {ClozeReason, AnswerReason}
    requires "Card " + d1 + r1 == "Card " + d2 + r2
    ensures d1 == d2 && r1 == r2
  {
    var x := "Card " + d1 + r1;
    FirstColonEndsNumber(d1, r1);
    FirstColonEndsNumber(d2, r2);
    assert d1 == x[5..5 + |d1|];
    assert r1 == x[5 + |d1|..];
  }

  /** In a card message the first colon comes right after the number. */
  lemma FirstColonEndsNumber(d: string, r: string)
    requires AllDigits(d)
    requires r in {ClozeReason, AnswerReason}
    ensures IndexOf("Card " + d + r, ':') == 5 + |d|
  {
    var x := "Card " + d + r;
    assert r[0] == ':';
    assert x[5 + |d|] == ':';
    assert x[..5 + |d|] == "Card " + d;
    assert ':' !in x[..5 + |d|] by {
      forall j | 0 <= j < |d| ensures d[j] != ':' {
        assert IsDigit(d[j]);
      }
    }
  }

  /** The report names card `i + 1` as missing its marker exactly when its
      front has none, and as missing its answer exactly when its back is
      blank. */
  lemma ValidationReportsEachCard(cards: seq<ClozeCard>, i: nat)
    requires i < |cards|
    ensures Message(MissingCloze(i + 1)) in ValidateCards(cards).errors <==> !HasClozeMarker(cards[i].front)
    ensures Message(MissingAnswer(i + 1)) in ValidateCards(cards).errors <==> IsBlank(cards[i].back)
  {
    MessageInReport(cards, MissingCloze(i + 1));
    MessageInReport(cards, MissingAnswer(i + 1));
    ProblemsNameFaults(cards, 0, i);
  }

  /** A message is in the report of a non-empty list exactly when its
      problem is among the cards' problems. */
  lemma MessageInReport(cards: seq<ClozeCard>, e: CardError)
    requires |cards| > 0
    ensures Message(e) in ValidateCards(cards).errors <==> e in Problems(cards, 0)
  {
    ReportIsMessages(cards);
    MessageOfProblem(Problems(cards, 0), ValidateCards(cards).errors, e);
  }

  /** The report of a non-empty list is the message of each problem, one
      for one. */
  lemma ReportIsMessages(cards: seq<ClozeCard>)
    requires |cards| > 0
    ensures var errors := ValidateCards(cards).errors;
            var problems := Problems(cards, 0);
            |errors| == |problems| && forall k :: 0 <= k < |errors| ==> errors[k] == Message(problems[k])
  {
  }

  /** In a list of messages of problems, the message of `e` appears exactly
      when `e` does, since messages are injective. */
  lemma MessageOfProblem(problems: seq<CardError>, errors: seq<string>, e: CardError)
    requires |errors| == |problems|
    requires forall k :: 0 <= k < |errors| ==> errors[k] == Message(problems[k])
    ensures Message(e) in errors <==> e in problems
  {
    if Message(e) in errors {
      var k :| 0 <= k < |errors| && errors[k] == Message(e);
      MessageInjective(e, problems[k]);
    }
    if e in problems {
      var k :| 0 <= k < |problems| && problems[k] == e;
      assert errors[k] == Message(e);
    }
  }

  /** `m` is the message of a problem of one of the cards `1..n`. */
  ghost predicate NamesCard(m: string, n: nat) {
    exists e: CardError :: m == Message(e) && !e.NoCards? && 0 < e.card <= n
  }

  /** `m1` and `m2` are the messages of problems `a` and `b`, with `a`
      reported before `b`. */
  ghost predicate ReportedBefore(m1: string, m2: string) {
    exists a: CardError, b: CardError :: m1 == Message(a) && m2 == Message(b) && Rank(a) < Rank(b)
  }

  /** The report of a non-empty list is in card order: every message names
      a card in range, and of two messages the earlier one names an earlier
      card, or the same card with the marker problem before the answer
      problem. */
  lemma ValidationReportOrder(cards: seq<ClozeCard>)
    requires |cards| > 0
    ensures var errors := ValidateCards(cards).errors;
            forall k :: 0 <= k < |errors| ==> NamesCard(errors[k], |cards|)
    ensures var errors := ValidateCards(cards).errors;
            forall k, l :: 0 <= k < l < |errors| ==> ReportedBefore(errors[k], errors[l])
  {
    var problems := Problems(cards, 0);
    var errors := ValidateCards(cards).errors;
    ReportIsMessages(cards);
    forall k | 0 <= k < |errors| ensures NamesCard(errors[k], |cards|) {
      var e := problems[k];
      assert !e.NoCards? && 0 < e.card <= |cards|;
      assert errors[k] == Message(e);
    }
    forall k, l | 0 <= k < l < |errors| ensures ReportedBefore(errors[k], errors[l]) {
      var a, b := problems[k], problems[l];
      assert Rank(a) < Rank(b);
      assert errors[k] == Message(a) && errors[l] == Message(b);
    }
  }

  // ---------------------------------------------------------------------------
  // generateDeck

  /** An `AnkiNote`; `kind` is its `type` field. */
  datatype Note = Note(
    id: nat, guid: string, mid: nat, mod: nat, usn: int, tags: string,
    flds: string, sfld: string, csum: nat, flags: nat, data: string,
    odue: nat, odid: nat, did: nat, omod: nat, kind: nat, queue: nat, left: nat)

  /** The note of the card at position `i`. */
  function NoteFor(g: Generator, i: nat, card: ClozeCard, now: nat): Note {
    var id := g.deckId + i + 1;
    Note(id := id, guid := GuidPrefix + NatToString(id), mid := g.modelId, mod := now,
         usn := -1, tags := NoteTags, flds := card.front + [FieldSeparator] + card.back,
         sfld := card.front, csum := 0, flags := 0, data := "", odue := 0, odid := 0,
         did := g.deckId, omod := 0, kind := 0, queue := 0, left := 0)
  }

  /** The notes loop of `generateDeck`: one note per card, in order. */
  function BuildNotes(g: Generator, cards: seq<ClozeCard>, now: nat): (notes: seq<Note>)
    ensures |notes| == |cards|
  {
    seq(|cards|, i requires 0 <= i < |cards| => NoteFor(g, i, cards[i], now))
  }

  /** A fresh, unscheduled note: every scheduling field is zero. */
  predicate Unscheduled(n: Note) {
    n.kind == 0 && n.queue == 0 && n.left == 0 && n.odue == 0 && n.odid == 0
    && n.omod == 0 && n.csum == 0 && n.flags == 0
  }

  /** Splits `s` at its first `c`: the text before and the text after. */
  function SplitAtFirst(s: string, c: char): (string, string)
    requires c in s
  {
    var k := IndexOf(s, c);
    (s[..k], s[k + 1..])
  }

  /** Every note mirrors its card: the sort field is the front, splitting
      the fields at the first separator gives back front and back (when the
      front has no separator of its own), the note belongs to the model and
      the deck, and it is unscheduled. */
  lemma NotesMirrorCards(g: Generator, cards: seq<ClozeCard>, now: nat, i: nat)
    requires i < |cards|
    ensures var n := BuildNotes(g, cards, now)[i];
            && n.sfld == cards[i].front
            && (FieldSeparator !in cards[i].front ==>
                  FieldSeparator in n.flds && SplitAtFirst(n.flds, FieldSeparator) == (cards[i].front, cards[i].back))
            && n.mid == g.modelId && n.did == g.deckId
            && Unscheduled(n)
  {
    var n := BuildNotes(g, cards, now)[i];
    var front := cards[i].front;
    if FieldSeparator !in front {
      assert n.flds[|front|] == FieldSeparator;
      assert n.flds[..|front|] == front;
      assert IndexOf(n.flds, FieldSeparator) == |front|;
      assert n.flds[|front| + 1..] == cards[i].back;
    }
  }

  /** The unit separator is not escaped, so a front holding one cannot be
      told apart from a back holding one: two different cards get the same
      fields. */
  lemma SeparatorInFrontIsAmbiguous(g: Generator, i: nat, now: nat)
    ensures var c1 := ClozeCard("0", "a" + [FieldSeparator] + "b", "c", "c");
            var c2 := ClozeCard("0", "a", "b" + [FieldSeparator] + "c", "c");
            c1 != c2 && NoteFor(g, i, c1, now).flds == NoteFor(g, i, c2, now).flds
  {
    var c1 := ClozeCard("0", "a" + [FieldSeparator] + "b", "c", "c");
    var c2 := ClozeCard("0", "a", "b" + [FieldSeparator] + "c", "c");
    assert c1.front != c2.front by { assert |c1.front| != |c2.front|; }
    assert c1.front + [FieldSeparator] + c1.back == c2.front + [FieldSeparator] + c2.back;
  }

  /** Note ids follow the card positions: `deckId + i + 1`, so they strictly
      increase, and each guid is the prefix and the id, so guids are
      distinct. */
  lemma NoteIdsAndGuids(g: Generator, cards: seq<ClozeCard>, now: nat)
    ensures var notes := BuildNotes(g, cards, now);
            forall i :: 0 <= i < |notes| ==>
              notes[i].id == g.deckId + i + 1 && notes[i].guid == GuidPrefix + NatToString(notes[i].id)
    ensures var notes := BuildNotes(g, cards, now);
            forall i, j :: 0 <= i < j < |notes| ==> notes[i].id < notes[j].id && notes[i].guid != notes[j].guid
  {
    var notes := BuildNotes(g, cards, now);
    forall i, j | 0 <= i < j < |notes| ensures notes[i].guid != notes[j].guid {
      if notes[i].guid == notes[j].guid {
        var a := NatToString(notes[i].id);
        var b := NatToString(notes[j].id);
        assert a == notes[i].guid[|GuidPrefix|..] == b;
        NatToStringInjective(notes[i].id, notes[j].id);
      }
    }
  }

  /** Ids, guids and fields do not depend on the time of packaging: only
      the `mod` stamp does. */
  lemma NotesIgnoreTime(g: Generator, cards: seq<ClozeCard>, now1: nat, now2: nat)
    ensures var a := BuildNotes(g, cards, now1);
            var b := BuildNotes(g, cards, now2);
            forall i :: 0 <= i < |cards| ==> a[i] == b[i].(mod := now1)
  {
  }

  // ---------------------------------------------------------------------------
  // The archive

  /** `deckData[1]`. */
  datatype DeckRecord = DeckRecord(
    id: nat, mod: nat, name: string, usn: int, lastSaved: nat, desc: string,
    dyn: bool, conf: nat, extendNew: nat, extendRev: nat)

  /** One field of the model. */
  datatype FieldDef = FieldDef(name: string, ord: nat)

  /** One card template of the model. */
  datatype Template = Template(name: string, ord: nat, qfmt: string, afmt: string)

  /** `modelData[1]`: the "Cloze with Explanation" model. */
  datatype ModelRecord = ModelRecord(
    id: nat, name: string, kind: nat, did: nat, mod: nat, usn: int, sortf: nat,
    flds: seq<FieldDef>, tmpls: seq<Template>)

  /** `dconf[1]`, without its fractional multipliers. */
  datatype DeckOptions = DeckOptions(
    name: string, newDelays: seq<nat>, newInts: seq<nat>, initialFactor: nat,
    lapseDelays: seq<nat>, minInt: nat, leechFails: nat, perDay: nat,
    mod: nat, id: nat, usn: int)

  /** The `col` tuple `[now, 0, 0, 11, ""]`. */
  datatype ColTuple = ColTuple(created: nat, lastSync: nat, schemaVersion: nat, serializerVersion: nat, extra: string)

  /** The `collection.json` document. */
  datatype Collection = Collection(
    decks: map<nat, DeckRecord>, dconf: map<nat, DeckOptions>,
    models: map<nat, ModelRecord>, col: ColTuple)

  /** The JSON value stored in an archive member. */
  datatype Document =
    | CollectionDoc(collection: Collection)
    | MediaDoc(media: map<string, string>)
    | NotesDoc(notes: seq<Note>)

  datatype Member = Member(name: string, doc: Document)

  /** The archive, members in the order they are added. */
  datatype Package = Package(members: seq<Member>)

  function CollectionFor(g: Generator, now: nat): Collection {
    var deck := DeckRecord(id := g.deckId, mod := now, name := g.deckName, usn := -1,
                           lastSaved := now, desc := "PDF to ANKI generated deck", dyn := false,
                           conf := 1, extendNew := 0, extendRev := 0);
    var model := ModelRecord(
      id := g.modelId, name := "Cloze with Explanation", kind := 1, did := g.deckId,
      mod := now, usn := -1, sortf := 0,
      flds := [FieldDef("Text", 0), FieldDef("Extra", 1)],
      tmpls := [Template("Cloze", 0, "{{cloze:Text}}",
                         "{{cloze:Text}}<br><br><div class=\"extra\">{{Extra}}</div>")]);
    var options := DeckOptions(
      name := "Default", newDelays := [1, 10], newInts := [1, 4, 7], initialFactor := 2500,
      lapseDelays := [10], minInt := 1, leechFails := 8, perDay := 200,
      mod := now, id := 1, usn := 0);
    Collection(map[1 := deck], map[1 := options], map[1 := model], ColTuple(now, 0, 0, 11, ""))
  }

  function MemberNames(p: Package): seq<string> {
    seq(|p.members|, k requires 0 <= k < |p.members| => p.members[k].name)
  }

  /** `generateDeck` at time `nowMillis` (`Date.now()`): validation first;
      on failure the error message and nothing else, on success the three
      archive members. */
  function GenerateDeck(g: Generator, cards: seq<ClozeCard>, nowMillis: nat): (r: Result<Package, string>)
    ensures r.Failure? <==> !ValidateCards(cards).valid
    ensures r.Failure? ==> r.error == ValidationFailedPrefix + Join(ValidateCards(cards).errors, ", ")
    ensures r.Success? ==>
              && MemberNames(r.value) == [CollectionMember, MediaMember, NotesMember]
              && r.value.members[1].doc == MediaDoc(map[])
              && r.value.members[2].doc.NotesDoc?
              && |r.value.members[2].doc.notes| == |cards|
  {
    var v := ValidateCards(cards);
    if !v.valid then
      Failure(ValidationFailedPrefix + Join(v.errors, ", "))
    else
      var now := nowMillis / 1000;
      Success(Archive(CollectionFor(g, now), BuildNotes(g, cards, now)))
  }

  /** The three members, in the order `generateDeck` adds them: the
      collection, an empty media map, and the notes. */
  function Archive(collection: Collection, notes: seq<Note>): (p: Package)
    ensures MemberNames(p) == [CollectionMember, MediaMember, NotesMember]
    ensures p.members[0].doc == CollectionDoc(collection)
    ensures p.members[1].doc == MediaDoc(map[])
    ensures p.members[2].doc == NotesDoc(notes)
  {
    Package([
      Member(CollectionMember, CollectionDoc(collection)),
      Member(MediaMember, MediaDoc(map[])),
      Member(NotesMember, NotesDoc(notes))
    ])
  }

  /** `generateAnkiPackage(cards, deckName)`; an omitted name is the
      default one. */
  function GenerateAnkiPackage(cards: seq<ClozeCard>, deckName: Option<string>, nowMillis: nat): (r: Result<Package, string>)
    ensures r.Failure? <==> !ValidateCards(cards).valid
  {
    GenerateDeck(NewGenerator(deckName), cards, nowMillis)
  }

  /** A packaged deck carries the requested name (or the default), the
      fixed ids, the time in whole seconds, and the notes of the cards. */
  lemma PackageContents(cards: seq<ClozeCard>, deckName: Option<string>, nowMillis: nat)
    requires GenerateAnkiPackage(cards, deckName, nowMillis).Success?
    ensures var p := GenerateAnkiPackage(cards, deckName, nowMillis).value;
            var g := NewGenerator(deckName);
            && p.members[0].doc.CollectionDoc?
            && 1 in p.members[0].doc.collection.decks
            && p.members[0].doc.collection.decks[1].name == (if deckName.Some? then deckName.value else DefaultDeckName)
            && p.members[0].doc.collection.decks[1].id == DeckId
            && p.members[0].doc.collection.col.created == nowMillis / 1000
            && p.members[2].doc == NotesDoc(BuildNotes(g, cards, nowMillis / 1000))
  {
  }

  /** An empty card list is rejected before anything is built. */
  lemma EmptyDeckRejected(g: Generator, nowMillis: nat)
    ensures GenerateDeck(g, [], nowMillis) == Failure("Card validation failed: No cards provided")
  {
    assert ValidationFailedPrefix + "No cards provided" == "Card validation failed: No cards provided";
  }

  /** A single card with a `{{c1::…}}` deletion and an answer packages,
      under the default deck name, into one note whose fields are the front
      and the back joined by the unit separator. The literals are split in
      two so that the verifier can index into them. */
  lemma SingleCardExample(nowMillis: nat)
    ensures var front := "The capital of France is " + "{{c1::Paris}}";
            var back := "Paris is the capital " + "of France.";
            var card := ClozeCard("0", front, back, back);
            var r := GenerateAnkiPackage([card], None, nowMillis);
            && r.Success?
            && r.value.members[2].doc.notes == [NoteFor(NewGenerator(None), 0, card, nowMillis / 1000)]
            && r.value.members[2].doc.notes[0].flds == front + [FieldSeparator] + back
  {
    var front := "The capital of France is " + "{{c1::Paris}}";
    var back := "Paris is the capital " + "of France.";
    ExampleCardIsValid(front, back);
    SingleValidCardPackages(ClozeCard("0", front, back, back), nowMillis);
  }

  lemma ExampleCardIsValid(front: string, back: string)
    requires front == "The capital of France is " + "{{c1::Paris}}"
    requires back == "Paris is the capital " + "of France."
    ensures IsValidCard(ClozeCard("0", front, back, back))
  {
    assert OccursAt(front, "{c", 26);
    ContainsOccurrence(front, "{c");
    ClozeMarkerIsSingleBrace(front);
    assert back[0] == 'P';
  }

  lemma SingleValidCardPackages(card: ClozeCard, nowMillis: nat)
    requires IsValidCard(card)
    ensures var r := GenerateAnkiPackage([card], None, nowMillis);
            && r.Success?
            && r.value.members[2].doc.notes == [NoteFor(NewGenerator(None), 0, card, nowMillis / 1000)]
  {
    ValidIffAllCardsValid([card]);
    assert ValidateCards([card]).valid;
    PackageContents([card], None, nowMillis);
    OneNote(NewGenerator(None), card, nowMillis / 1000);
  }

  /** A single card gives a single note. */
  lemma OneNote(g: Generator, card: ClozeCard, now: nat)
    ensures BuildNotes(g, [card], now) == [NoteFor(g, 0, card, now)]
  {
    var notes := BuildNotes(g, [card], now);
    assert notes[0] == NoteFor(g, 0, card, now);
  }
}

=== FILE: llm_service.dfy ===
/** The deterministic halves of the two LLM calls: turning the fact
    extractor's reply into `HighYieldPoint`s, numbering the facts for the
    card prompt, and turning the card synthesiser's reply into `ClozeCard`s.
    The completion request itself is not modelled: the reply text is an
    input, and `JSON.parse` is a `decode` parameter. */
module LlmService {
  import opened Wrappers
  import opened Text
  import opened Types
  import opened Selection

  /** `extractHighYieldPoints` returns at most this many facts. */
  const MaxFacts: nat := 15

  /** A cleaned line is kept only when it is longer than this. */
  const MinFactLength: nat := 5

  // ---------------------------------------------------------------------------
  // The numbering marker `^\d+[.)\-\s]+`

  /** The character class `[.)\-\s]`. */
  predicate IsSeparator(c: char) {
    c == '.' || c == ')' || c == '-' || IsWhitespace(c)
  }

  /** `p` matches `\d+[.)\-\s]+` as a whole: it is made of digits and
      separators, starts with a digit, ends with a separator, and no digit
      follows a separator. */
  ghost predicate IsMarker(p: string) {
    && |p| > 0
    && IsDigit(p[0])
    && IsSeparator(p[|p| - 1])
    && (forall i :: 0 <= i < |p| ==> IsDigit(p[i]) || IsSeparator(p[i]))
    && (forall i, j :: 0 <= i < j < |p| && IsSeparator(p[i]) ==> !IsDigit(p[j]))
  }

  /** The length of the text `line.replace(/^\d+[.)\-\s]+/, "")` removes:
      the longest prefix of `line` that is a marker, or 0 when none is. */
  function MarkerLength(line: string): (n: nat)
    ensures n <= |line|
    ensures n > 0 ==> IsMarker(line[..n])
    ensures forall m :: n < m <= |line| ==> !IsMarker(line[..m])
  {
    var d := LeadingRun(line, IsDigit);
    var n := if 0 < d < |line| && IsSeparator(line[d]) then d + LeadingRun(line[d..], IsSeparator) else 0;
    MarkerLengthLongest(line, d, n);
    n
  }

  lemma DigitIsNoSeparator(c: char)
    requires IsDigit(c)
    ensures !IsSeparator(c)
  {
  }

  lemma MarkerLengthLongest(line: string, d: nat, n: nat)
    requires d == LeadingRun(line, IsDigit)
    requires n == if 0 < d < |line| && IsSeparator(line[d]) then d + LeadingRun(line[d..], IsSeparator) else 0
    ensures n <= |line|
    ensures n > 0 ==> IsMarker(line[..n])
    ensures forall m :: n < m <= |line| ==> !IsMarker(line[..m])
  {
    if n > 0 {
      MarkerPrefixMatches(line, d, n);
    }
    forall m | n < m <= |line| ensures !IsMarker(line[..m]) {
      if n == 0 {
        NoMarkerPrefix(line, d, m);
      } else {
        NoLongerMarker(line, d, n, m);
      }
    }
  }

  lemma MarkerPrefixMatches(line: string, d: nat, n: nat)
    requires d == LeadingRun(line, IsDigit)
    requires 0 < d < |line| && IsSeparator(line[d])
    requires n == d + LeadingRun(line[d..], IsSeparator)
    ensures n <= |line| && IsMarker(line[..n])
  {
    var p := line[..n];
    forall i | 0 <= i < |p| ensures (i < d ==> IsDigit(p[i])) && (d <= i ==> IsSeparator(p[i])) {
      if d <= i { assert p[i] == line[d..][i - d]; }
    }
    forall i | 0 <= i < d ensures !IsSeparator(p[i]) {
      DigitIsNoSeparator(p[i]);
    }
    forall i | d <= i < n ensures !IsDigit(p[i]) {
      if IsDigit(p[i]) { DigitIsNoSeparator(p[i]); }
    }
  }

  lemma NoMarkerPrefix(line: string, d: nat, m: nat)
    requires d == LeadingRun(line, IsDigit)
    requires !(0 < d < |line| && IsSeparator(line[d]))
    requires 0 < m <= |line|
    ensures !IsMarker(line[..m])
  {
    var p := line[..m];
    if m <= d {
      DigitIsNoSeparator(p[m - 1]);
    }
  }

  lemma NoLongerMarker(line: string, d: nat, n: nat, m: nat)
    requires d == LeadingRun(line, IsDigit)
    requires 0 < d < |line| && IsSeparator(line[d])
    requires n == d + LeadingRun(line[d..], IsSeparator)
    requires n < m <= |line|
    ensures !IsMarker(line[..m])
  {
    var p := line[..m];
    var e := LeadingRun(line[d..], IsSeparator);
    assert p[n] == line[d..][e];
    assert IsSeparator(p[d]) && d < n;
  }

  /** `line.replace(/^\d+[.)\-\s]+/, "")`. */
  function StripMarker(line: string): (r: string)
    ensures |r| <= |line| && r == line[|line| - |r|..]
    ensures |r| < |line| ==> IsMarker(line[..|line| - |r|])
    ensures forall m :: |line| - |r| < m <= |line| ==> !IsMarker(line[..m])
  {
    line[MarkerLength(line)..]
  }

  /** `line.replace(/^\d+[.)\-\s]+/, "").trim()`. */
  function CleanLine(line: string): string {
    Trim(StripMarker(line))
  }

  /** The two guards of the parsing loop: the line is not blank, and its
      cleaned text is longer than `MinFactLength` UTF-16 code units (which
      also makes `cleaned` truthy). */
  predicate Accepts(line: string) {
    !IsBlank(line) && Utf16Length(CleanLine(line)) > MinFactLength
  }

  /** What a fact's text always satisfies. */
  predicate IsFactText(t: string) {
    Trim(t) == t && Utf16Length(t) > MinFactLength
  }

  /** The fact parsed from line `i`: its id is the line's index. */
  function FactOf(i: nat, line: string): HighYieldPoint {
    HighYieldPoint(NatToString(i), CleanLine(line))
  }

  lemma AcceptedLineIsFactText(line: string)
    requires Accepts(line)
    ensures IsFactText(CleanLine(line))
  {
    TrimIdempotent(StripMarker(line));
  }

  /** The parsing half of `extractHighYieldPoints`: split the reply on
      `"\n"`, turn every accepted line into a fact, return the first
      `MaxFacts` of them. */
  function ParseFacts(reply: string): (points: seq<HighYieldPoint>)
    ensures |points| <= MaxFacts
    ensures forall k :: 0 <= k < |points| ==> IsFactText(points[k].point)
  {
    var lines := Split(reply, '\n');
    var points := Take(Collect(lines, Accepts, FactOf, 0), MaxFacts);
    FirstAcceptedFacts(lines);
    assert forall k :: 0 <= k < |points| ==> IsFactText(points[k].point) by {
      var idx := Selected(lines, Accepts, 0);
      forall k | 0 <= k < |points| ensures IsFactText(points[k].point) {
        AcceptedLineIsFactText(lines[idx[k]]);
      }
    }
    points
  }

  /** `ParseFacts` returns the facts of the first `MaxFacts` accepted
      lines, in line order; with the contract of `Selected` this says that
      every accepted line before the last returned one is returned. */
  lemma ParseFactsFirstAccepted(reply: string)
    ensures var lines := Split(reply, '\n');
            var idx := Selected(lines, Accepts, 0);
            var points := ParseFacts(reply);
            && |points| == (if |idx| <= MaxFacts then |idx| else MaxFacts)
            && forall k :: 0 <= k < |points| ==> points[k] == FactOf(idx[k], lines[idx[k]])
  {
    FirstAcceptedFacts(Split(reply, '\n'));
  }

  /** The first `MaxFacts` facts of the accepted lines of `lines`. */
  lemma FirstAcceptedFacts(lines: seq<string>)
    ensures var idx := Selected(lines, Accepts, 0);
            var points := Take(Collect(lines, Accepts, FactOf, 0), MaxFacts);
            && |points| == (if |idx| <= MaxFacts then |idx| else MaxFacts)
            && forall k :: 0 <= k < |points| ==> points[k] == FactOf(idx[k], lines[idx[k]])
  {
    CollectSelected(lines, Accepts, FactOf, 0);
  }

  /** Fact ids are line indices, so they strictly increase (and skip the
      indices of rejected lines). */
  lemma FactIdsIncrease(reply: string)
    ensures var points := ParseFacts(reply);
            forall k :: 0 <= k < |points| ==> AllDigits(points[k].id)
    ensures var points := ParseFacts(reply);
            forall k, l :: 0 <= k < l < |points| ==>
              DecimalValue(points[k].id) < DecimalValue(points[l].id)
  {
    var idx := Selected(Split(reply, '\n'), Accepts, 0);
    var points := ParseFacts(reply);
    FactIdsAreLineIndices(reply);
    forall k | 0 <= k < |points| ensures DecimalValue(points[k].id) == idx[k] {
      DecimalOfNatToString(idx[k]);
    }
  }

  /** Fact `k` carries the index of the `k`-th accepted line. */
  lemma FactIdsAreLineIndices(reply: string)
    ensures var idx := Selected(Split(reply, '\n'), Accepts, 0);
            var points := ParseFacts(reply);
            |points| <= |idx| && forall k :: 0 <= k < |points| ==> points[k].id == NatToString(idx[k])
  {
    ParseFactsFirstAccepted(reply);
  }

  /** A blank line never produces a fact: no fact carries its index. */
  lemma BlankLineGivesNoFact(reply: string, j: nat)
    requires j < |Split(reply, '\n')| && IsBlank(Split(reply, '\n')[j])
    ensures forall k :: 0 <= k < |ParseFacts(reply)| ==> ParseFacts(reply)[k].id != NatToString(j)
  {
    var lines := Split(reply, '\n');
    var idx := Selected(lines, Accepts, 0);
    var points := ParseFacts(reply);
    ParseFactsFirstAccepted(reply);
    forall k | 0 <= k < |points| ensures points[k].id != NatToString(j) {
      if points[k].id == NatToString(j) {
        NatToStringInjective(idx[k], j);
      }
    }
  }

  /** A reply with no line longer than `MinFactLength` after cleaning
      (in particular the empty reply) gives no facts, not an error. */
  lemma ShortRepliesGiveNoFacts(reply: string)
    requires forall j :: 0 <= j < |Split(reply, '\n')| ==>
               Utf16Length(CleanLine(Split(reply, '\n')[j])) <= MinFactLength
    ensures ParseFacts(reply) == []
  {
    var lines := Split(reply, '\n');
    ParseFactsFirstAccepted(reply);
    assert forall j :: 0 <= j < |lines| ==> !Accepts(lines[j]);
    SelectedNone(lines, Accepts, 0);
  }

  // ---------------------------------------------------------------------------
  // The numbered fact list of the card prompt

  /** Line `i` of the prompt's fact list: `${i + 1}. ${p.point}`. */
  function NumberedLine(i: nat, p: HighYieldPoint): string {
    NatToString(i + 1) + ". " + p.point
  }

  /** `points.map((p, i) => `${i + 1}. ${p.point}`).join("\n")`. */
  function NumberedPoints(points: seq<HighYieldPoint>): (text: string)
    ensures text == [] <==> points == []
  {
    Join(seq(|points|, i requires 0 <= i < |points| => NumberedLine(i, points[i])), "\n")
  }

  /** With no line break inside a fact, the prompt's list has exactly one
      line per fact, and line `i` is the numbered fact `i`. */
  lemma NumberedPointsLines(points: seq<HighYieldPoint>)
    requires |points| > 0
    requires forall i :: 0 <= i < |points| ==> '\n' !in points[i].point
    ensures Split(NumberedPoints(points), '\n') == seq(|points|, i requires 0 <= i < |points| => NumberedLine(i, points[i]))
  {
    var lines := seq(|points|, i requires 0 <= i < |points| => NumberedLine(i, points[i]));
    forall i | 0 <= i < |lines| ensures '\n' !in lines[i] {
      var d := NatToString(i + 1);
      assert lines[i] == d + ". " + points[i].point;
      assert forall k :: 0 <= k < |d| ==> d[k] != '\n';
    }
    SplitJoin(lines, '\n');
  }

  /** The marker of `d + ". " + t`, for a numeral `d` and a `t` that does
      not start with a separator, is `d + ". "`. */
  lemma NumberedMarker(d: string, t: string)
    requires |d| >= 1 && AllDigits(d)
    requires |t| > 0 && !IsSeparator(t[0])
    ensures MarkerLength(d + ". " + t) == |d| + 2
  {
    var line := d + ". " + t;
    assert line[|d|] == '.';
    var r := LeadingRun(line, IsDigit);
    assert r == |d|;
    var rest := line[|d|..];
    assert rest == ". " + t;
    var e := LeadingRun(rest, IsSeparator);
    assert rest[0] == '.' && rest[1] == ' ' && rest[2] == t[0];
    assert e == 2;
  }

  /** Cleaning a numbered line leaves the fact, and the parser accepts the
      line. */
  lemma NumberedLineCleans(i: nat, p: HighYieldPoint)
    requires IsFactText(p.point) && !IsSeparator(p.point[0])
    ensures CleanLine(NumberedLine(i, p)) == p.point
    ensures Accepts(NumberedLine(i, p))
  {
    var d := NatToString(i + 1);
    var t := p.point;
    var line := NumberedLine(i, p);
    assert line == d + ". " + t;
    NumberedMarker(d, t);
    assert StripMarker(line) == line[|d| + 2..] == t;
    assert !AllWhitespace(line) by {
      DigitIsNoSeparator(line[0]);
    }
  }

  /** Parsing the numbered list of at most `MaxFacts` facts gives the facts
      back, each with the index of its line as id, provided every fact reads
      like one the parser produces and does not start with a separator. */
  lemma ParseNumberedPoints(points: seq<HighYieldPoint>)
    requires |points| <= MaxFacts
    requires forall i :: 0 <= i < |points| ==>
               && IsFactText(points[i].point)
               && '\n' !in points[i].point
               && !IsSeparator(points[i].point[0])
    ensures ParseFacts(NumberedPoints(points)) == Renumbered(points)
  {
    if |points| == 0 {
      EmptyListParsesEmpty();
    } else {
      ParseNonEmptyNumberedPoints(points);
    }
  }

  lemma EmptyListParsesEmpty()
    ensures ParseFacts(NumberedPoints([])) == []
  {
    var text := NumberedPoints([]);
    var lines := Split(text, '\n');
    assert text == [];
    assert lines == [[]] by { assert IndexOf(text, '\n') == -1; }
    assert IsBlank(lines[0]);
    SelectedNone(lines, Accepts, 0);
    ParseFactsFirstAccepted(text);
  }

  lemma ParseNonEmptyNumberedPoints(points: seq<HighYieldPoint>)
    requires 0 < |points| <= MaxFacts
    requires forall i :: 0 <= i < |points| ==>
               && IsFactText(points[i].point)
               && '\n' !in points[i].point
               && !IsSeparator(points[i].point[0])
    ensures ParseFacts(NumberedPoints(points)) == Renumbered(points)
  {
    var text := NumberedPoints(points);
    NumberedLinesAccepted(points);
    AcceptedLinesGiveFacts(Split(text, '\n'), points);
    ParseFactsOfFewLines(text);
  }

  lemma NumberedLinesAccepted(points: seq<HighYieldPoint>)
    requires 0 < |points|
    requires forall i :: 0 <= i < |points| ==>
               && IsFactText(points[i].point)
               && '\n' !in points[i].point
               && !IsSeparator(points[i].point[0])
    ensures var lines := Split(NumberedPoints(points), '\n');
            && |lines| == |points|
            && forall j :: 0 <= j < |lines| ==> Accepts(lines[j]) && CleanLine(lines[j]) == points[j].point
  {
    var lines := Split(NumberedPoints(points), '\n');
    NumberedPointsLines(points);
    forall j | 0 <= j < |lines| ensures Accepts(lines[j]) && CleanLine(lines[j]) == points[j].point {
      assert lines[j] == NumberedLine(j, points[j]);
      NumberedLineCleans(j, points[j]);
    }
  }

  lemma ParseFactsOfFewLines(reply: string)
    requires |Split(reply, '\n')| <= MaxFacts
    ensures ParseFacts(reply) == Collect(Split(reply, '\n'), Accepts, FactOf, 0)
  {
  }

  lemma AcceptedLinesGiveFacts(lines: seq<string>, points: seq<HighYieldPoint>)
    requires |lines| == |points|
    requires forall j :: 0 <= j < |lines| ==> Accepts(lines[j]) && CleanLine(lines[j]) == points[j].point
    ensures Collect(lines, Accepts, FactOf, 0) == Renumbered(points)
  {
    var facts := Renumbered(points);
    forall j | 0 <= j < |lines| ensures Accepts(lines[j]) && FactOf(j, lines[j]) == facts[j] {
      assert facts[j] == HighYieldPoint(NatToString(j), points[j].point);
    }
    CollectAllIs(lines, Accepts, FactOf, facts);
  }

  /** The facts as the parser reads them back from their numbered list: the
      same texts, each with its position as id. */
  function Renumbered(points: seq<HighYieldPoint>): (r: seq<HighYieldPoint>)
    ensures |r| == |points|
    ensures forall i :: 0 <= i < |r| ==> r[i] == HighYieldPoint(NatToString(i), points[i].point)
  {
    seq(|points|, i requires 0 <= i < |points| => HighYieldPoint(NatToString(i), points[i].point))
  }

  // ---------------------------------------------------------------------------
  // The card-array reply

  /** An element of the array `JSON.parse` returns, as the card loop sees it:
      `null`, on which reading `.front` throws, or any other value seen
      through its `front` and `back` properties, where the empty string
      stands for every falsy or missing property. */
  datatype Element = NullElement | Item(front: string, back: string)

  predicate IsItem(e: Element) {
    e.Item?
  }

  /** `item.front && item.back`. */
  predicate HasFrontAndBack(e: Element) {
    e.Item? && e.front != [] && e.back != []
  }

  /** `s` holds the slice `v` at position `k`: `v` runs from a `[` to a `]`,
      no `[` comes before it and no `]` after it. */
  ghost predicate SlicedAt(s: string, k: nat, v: string) {
    && k + |v| <= |s|
    && v == s[k..k + |v|]
    && |v| >= 2 && v[0] == '[' && v[|v| - 1] == ']'
    && '[' !in s[..k]
    && ']' !in s[k + |v|..]
  }

  /** The text `generateClozeCards` hands to `JSON.parse`: from the first `[`
      to the last `]`, inclusive; `None` when there is no `[` or no `]` after
      it. */
  function JsonSlice(response: string): (r: Option<string>)
    ensures r.None? <==> forall i, j :: 0 <= i < j < |response| && response[i] == '[' ==> response[j] != ']'
    ensures r.Some? ==> exists k :: SlicedAt(response, k, r.value)
  {
    var jsonStart := IndexOf(response, '[');
    var jsonEnd := LastIndexOf(response, ']') + 1;
    if jsonStart != -1 && jsonEnd > jsonStart then
      var v := response[jsonStart..jsonEnd];
      assert SlicedAt(response, jsonStart, v);
      Some(v)
    else
      None
  }

  /** Prose without brackets around the array is ignored. */
  lemma JsonSliceIgnoresProse(before: string, body: string, after: string)
    requires '[' !in before && ']' !in after
    requires |body| >= 2 && body[0] == '[' && body[|body| - 1] == ']'
    ensures JsonSlice(before + body + after) == Some(body)
  {
    var s := before + body + after;
    assert s[|before|] == '[' && s[..|before|] == before;
    assert IndexOf(s, '[') == |before|;
    var last := |before| + |body| - 1;
    assert s[last] == ']' && s[last + 1..] == after;
    assert LastIndexOf(s, ']') == last;
    assert s[|before|..last + 1] == body;
  }

  /** The card loop from element `from` on: it stops at the first `null`
      (reading `.front` throws, and the `catch` keeps the cards already
      pushed) and turns every element with a front and a back into a card
      whose id is the element's index and whose explanation copies `back`. */
  function BuildCards(items: seq<Element>, from: nat): (cards: seq<ClozeCard>)
    requires from <= |items|
    ensures |cards| <= |items| - from
    ensures forall k :: 0 <= k < |cards| ==>
              cards[k].explanation == cards[k].back && cards[k].front != [] && cards[k].back != []
    decreases |items| - from
  {
    if from == |items| then []
    else
      match items[from]
      case NullElement => []
      case Item(front, back) =>
        var rest := BuildCards(items, from + 1);
        if front != [] && back != [] then [CardOf(from, items[from])] + rest
        else rest
  }

  /** The card pushed for element `i`; only ever applied to an element with
      a front and a back. */
  function CardOf(i: nat, e: Element): ClozeCard {
    if e.Item? then ClozeCard(NatToString(i), e.front, e.back, e.back)
    else ClozeCard(NatToString(i), [], [], [])
  }

  /** The parsing half of `generateClozeCards`. `decode` stands for
      `JSON.parse` on the slice, `None` for the `SyntaxError` it throws;
      every failure ends in the cards built so far, never in an error. */
  function ParseCards(response: string, decode: string -> Option<seq<Element>>): (cards: seq<ClozeCard>)
    ensures forall k :: 0 <= k < |cards| ==>
              cards[k].explanation == cards[k].back && cards[k].front != [] && cards[k].back != []
    ensures JsonSlice(response).None? ==> cards == []
    ensures JsonSlice(response).Some? && decode(JsonSlice(response).value).None? ==> cards == []
  {
    match JsonSlice(response)
    case None => []
    case Some(json) =>
      match decode(json)
      case None => []
      case Some(items) => BuildCards(items, 0)
  }

  /** The cards are exactly the elements with a front and a back that come
      before the first `null`, in array order, each with its array index as
      id. */
  lemma BuildCardsSelected(items: seq<Element>, from: nat)
    requires from <= LeadingRun(items, IsItem)
    ensures var n := LeadingRun(items, IsItem);
            var idx := Selected(items[..n], HasFrontAndBack, from);
            var cards := BuildCards(items, from);
            && |cards| == |idx|
            && forall k :: 0 <= k < |cards| ==>
                 && items[idx[k]].Item?
                 && cards[k] == ClozeCard(NatToString(idx[k]), items[idx[k]].front, items[idx[k]].back, items[idx[k]].back)
  {
    var xs := items[..LeadingRun(items, IsItem)];
    BuildCardsIsCollect(items, from);
    CollectSelected(xs, HasFrontAndBack, CardOf, from);
  }

  /** Up to the first `null`, the card loop is a filter-and-map with
      `HasFrontAndBack` and `CardOf`; the `null` ends it. */
  lemma {:induction false} BuildCardsIsCollect(items: seq<Element>, from: nat)
    requires from <= LeadingRun(items, IsItem)
    ensures BuildCards(items, from) == Collect(items[..LeadingRun(items, IsItem)], HasFrontAndBack, CardOf, from)
    decreases |items| - from
  {
    var n := LeadingRun(items, IsItem);
    if from < n {
      BuildCardsIsCollect(items, from + 1);
      assert items[..n][from] == items[from];
    } else if from < |items| {
      assert items[from] == NullElement;
    }
  }

  /** What `ParseCards` returns once the slice decodes to an array. */
  lemma ParseCardsSelected(response: string, decode: string -> Option<seq<Element>>)
    requires JsonSlice(response).Some?
    requires decode(JsonSlice(response).value).Some?
    ensures var items := decode(JsonSlice(response).value).value;
            var n := LeadingRun(items, IsItem);
            var idx := Selected(items[..n], HasFrontAndBack, 0);
            var cards := ParseCards(response, decode);
            && |cards| == |idx|
            && forall k :: 0 <= k < |cards| ==>
                 && items[idx[k]].Item?
                 && cards[k] == ClozeCard(NatToString(idx[k]), items[idx[k]].front, items[idx[k]].back, items[idx[k]].back)
  {
    BuildCardsSelected(decode(JsonSlice(response).value).value, 0);
  }
}

=== FILE: selection.dfy ===
/** Index bookkeeping shared by the two reply parsers: which positions of a
    sequence a filter keeps, and JavaScript's `slice(0, n)`. */
module Selection {

  /** The positions `i` in `[from, |xs|)` whose element `keep` accepts, in
      increasing order. */
  function Selected<T>(xs: seq<T>, keep: T -> bool, from: nat): (r: seq<nat>)
    requires from <= |xs|
    ensures forall k :: 0 <= k < |r| ==> from <= r[k] < |xs| && keep(xs[r[k]])
    ensures forall k, l :: 0 <= k < l < |r| ==> r[k] < r[l]
    ensures forall j :: from <= j < |xs| && keep(xs[j]) ==> j in r
    decreases |xs| - from
  {
    if from == |xs| then []
    else if keep(xs[from]) then [from] + Selected(xs, keep, from + 1)
    else Selected(xs, keep, from + 1)
  }

  /** A filter that rejects everything selects nothing. */
  lemma {:induction false} SelectedNone<T>(xs: seq<T>, keep: T -> bool, from: nat)
    requires from <= |xs|
    requires forall j :: from <= j < |xs| ==> !keep(xs[j])
    ensures Selected(xs, keep, from) == []
    decreases |xs| - from
  {
    if from < |xs| {
      SelectedNone(xs, keep, from + 1);
    }
  }

  /** A filter-and-map loop over `xs` from position `from` on: every
      element `keep` accepts contributes `make(i, xs[i])`, in order. */
  function Collect<T, U>(xs: seq<T>, keep: T -> bool, make: (nat, T) -> U, from: nat): (r: seq<U>)
    requires from <= |xs|
    ensures |r| <= |xs| - from
    decreases |xs| - from
  {
    if from == |xs| then []
    else if keep(xs[from]) then [make(from, xs[from])] + Collect(xs, keep, make, from + 1)
    else Collect(xs, keep, make, from + 1)
  }

  /** The output of `Collect` is `make` applied to the `Selected` positions,
      one for one and in order. */
  lemma {:induction false} CollectSelected<T, U>(xs: seq<T>, keep: T -> bool, make: (nat, T) -> U, from: nat)
    requires from <= |xs|
    ensures var idx := Selected(xs, keep, from);
            var r := Collect(xs, keep, make, from);
            |r| == |idx| && forall k :: 0 <= k < |r| ==> r[k] == make(idx[k], xs[idx[k]])
    decreases |xs| - from
  {
    if from < |xs| {
      CollectSelected(xs, keep, make, from + 1);
      var idx := Selected(xs, keep, from + 1);
      var r := Collect(xs, keep, make, from + 1);
      if keep(xs[from]) {
        assert Selected(xs, keep, from) == [from] + idx;
        assert Collect(xs, keep, make, from) == [make(from, xs[from])] + r;
      } else {
        assert Selected(xs, keep, from) == idx;
        assert Collect(xs, keep, make, from) == r;
      }
    }
  }

  /** When `keep` accepts every element, `Collect` maps every position. */
  lemma {:induction false} CollectAll<T, U>(xs: seq<T>, keep: T -> bool, make: (nat, T) -> U, from: nat)
    requires from <= |xs|
    requires forall j :: from <= j < |xs| ==> keep(xs[j])
    ensures var r := Collect(xs, keep, make, from);
            |r| == |xs| - from && forall k :: 0 <= k < |r| ==> r[k] == make(from + k, xs[from + k])
    decreases |xs| - from
  {
    if from < |xs| {
      CollectAll(xs, keep, make, from + 1);
      var rest := Collect(xs, keep, make, from + 1);
      var r := Collect(xs, keep, make, from);
      assert r == [make(from, xs[from])] + rest;
      forall k | 0 < k < |r| ensures r[k] == make(from + k, xs[from + k]) {
        assert r[k] == rest[k - 1];
      }
    }
  }

  /** When `keep` accepts every element and `make` gives `ys` position by
      position, `Collect` gives `ys`. */
  lemma CollectAllIs<T, U>(xs: seq<T>, keep: T -> bool, make: (nat, T) -> U, ys: seq<U>)
    requires |ys| == |xs|
    requires forall j :: 0 <= j < |xs| ==> keep(xs[j]) && make(j, xs[j]) == ys[j]
    ensures Collect(xs, keep, make, 0) == ys
  {
    CollectAll(xs, keep, make, 0);
    var r := Collect(xs, keep, make, 0);
    forall k | 0 <= k < |r| ensures r[k] == ys[k] {
      assert r[k] == make(0 + k, xs[0 + k]);
    }
  }

  /** The length of the longest prefix of `xs` whose elements all satisfy
      `p`. */
  function LeadingRun<T>(xs: seq<T>, p: T -> bool): (n: nat)
    ensures n <= |xs|
    ensures forall i :: 0 <= i < n ==> p(xs[i])
    ensures n < |xs| ==> !p(xs[n])
  {
    if |xs| > 0 && p(xs[0]) then 1 + LeadingRun(xs[1..], p) else 0
  }

  /** `xs.slice(0, n)`: the first `n` elements, or all of them when there
      are fewer. */
  function Take<T>(xs: seq<T>, n: nat): (r: seq<T>)
    ensures |r| == if |xs| <= n then |xs| else n
    ensures r <= xs
  {
    if |xs| <= n then xs else xs[..n]
  }
}

=== FILE: text.dfy ===
/** The JavaScript string operations the pipeline relies on, over `seq<char>`
    (one `char` per Unicode scalar value): `trim`, `includes`, `indexOf`,
    `lastIndexOf`, `split` on one character, `join`, `String(n)` for a
    non-negative integer, and the UTF-16 `length`. */
module Text {

  /** The code points JavaScript classes as WhiteSpace or LineTerminator:
      exactly what `String.prototype.trim` removes and what the regular
      expression class `\s` matches. */
  predicate IsWhitespace(c: char) {
    || c == '\t' || c == '\n' || c == '\U{000B}' || c == '\U{000C}' || c == '\r'
    || c == ' ' || c == '\U{00A0}' || c == '\U{1680}'
    || ('\U{2000}' <= c <= '\U{200A}')
    || c == '\U{2028}' || c == '\U{2029}' || c == '\U{202F}' || c == '\U{205F}'
    || c == '\U{3000}' || c == '\U{FEFF}'
  }

  predicate AllWhitespace(s: string) {
    forall i :: 0 <= i < |s| ==> IsWhitespace(s[i])
  }

  /** The regular-expression class `\d`: ASCII digits only. */
  predicate IsDigit(c: char) {
    '0' <= c <= '9'
  }

  predicate AllDigits(s: string) {
    forall i :: 0 <= i < |s| ==> IsDigit(s[i])
  }

  // ---------------------------------------------------------------------------
  // trim

  /** Drops the leading whitespace of `s`. */
  function TrimStart(s: string): (r: string)
    ensures |r| <= |s| && r == s[|s| - |r|..]
    ensures forall i :: 0 <= i < |s| - |r| ==> IsWhitespace(s[i])
    ensures r == [] || !IsWhitespace(r[0])
  {
    if |s| > 0 && IsWhitespace(s[0]) then TrimStart(s[1..]) else s
  }

  /** Drops the trailing whitespace of `s`. */
  function TrimEnd(s: string): (r: string)
    ensures |r| <= |s| && r == s[..|r|]
    ensures forall i :: |r| <= i < |s| ==> IsWhitespace(s[i])
    ensures r == [] || !IsWhitespace(r[|r| - 1])
  {
    if |s| > 0 && IsWhitespace(s[|s| - 1]) then TrimEnd(s[..|s| - 1]) else s
  }

  /** `r` is the slice of `s` starting at `k`, with only whitespace before
      and after it. */
  ghost predicate TrimmedAt(s: string, k: nat, r: string) {
    && k + |r| <= |s|
    && r == s[k..k + |r|]
    && (forall i :: 0 <= i < k ==> IsWhitespace(s[i]))
    && (forall i :: k + |r| <= i < |s| ==> IsWhitespace(s[i]))
  }

  /** `s.trim()`: the slice of `s` between its leading and its trailing
      whitespace (`TrimSlice` states where that slice sits in `s`). */
  function Trim(s: string): (r: string)
    ensures |r| <= |s|
    ensures r == [] || (!IsWhitespace(r[0]) && !IsWhitespace(r[|r| - 1]))
    ensures r == [] <==> AllWhitespace(s)
  {
    var t := TrimStart(s);
    var r := TrimEnd(t);
    assert r != [] ==> r[0] == t[0];
    assert r == [] ==> t == [];
    r
  }

  /** The trim of `s` is a slice of `s` with only whitespace around it. */
  lemma TrimSlice(s: string)
    ensures exists k :: TrimmedAt(s, k, Trim(s))
  {
    var t := TrimStart(s);
    var r := TrimEnd(t);
    var k := |s| - |t|;
    assert r == s[k..k + |r|] by {
      assert t == s[k..];
      assert r == t[..|r|];
    }
    forall i | k + |r| <= i < |s| ensures IsWhitespace(s[i]) {
      assert s[i] == t[i - k];
    }
    assert Trim(s) == r;
    assert TrimmedAt(s, k, r);
  }

  /** The whitespace around a string is exactly what `Trim` removes: any
      split of `s` into whitespace, a slice with no whitespace at either end,
      and whitespace, has that slice as its trim. */
  lemma TrimUnique(s: string, a: nat, b: nat)
    requires a <= b <= |s|
    requires forall i :: 0 <= i < a ==> IsWhitespace(s[i])
    requires forall i :: b <= i < |s| ==> IsWhitespace(s[i])
    requires a == b || (!IsWhitespace(s[a]) && !IsWhitespace(s[b - 1]))
    ensures Trim(s) == s[a..b]
  {
    var r := Trim(s);
    TrimSlice(s);
    var k: nat :| TrimmedAt(s, k, r);
    var e := k + |r|;
    if a == b {
      assert AllWhitespace(s) by {
        forall i | 0 <= i < |s| ensures IsWhitespace(s[i]) {
          if i < a {} else {}
        }
      }
    } else {
      assert !IsWhitespace(s[a]);
      assert |r| > 0 && k < |s|;
      assert r == s[k..e];
      assert r[0] == s[k..e][0] == s[k];
      assert r[|r| - 1] == s[k..e][|r| - 1] == s[e - 1];
      assert !(k < a) && !(a < k);
      assert !(e < b) && !(b < e);
    }
  }

  /** Trimming a trimmed string changes nothing. */
  lemma TrimIdempotent(s: string)
    ensures Trim(Trim(s)) == Trim(s)
  {
    var r := Trim(s);
    TrimUnique(r, 0, |r|);
  }

  /** `s.trim() === ""` (and `!s`, which implies it). */
  predicate IsBlank(s: string) {
    Trim(s) == []
  }

  // ---------------------------------------------------------------------------
  // includes, indexOf, lastIndexOf

  /** `s.includes(sub)`. */
  predicate Contains(s: string, sub: string)
    decreases |s|
  {
    sub <= s || (|s| > 0 && Contains(s[1..], sub))
  }

  /** `sub` occurs in `s` at position `i`. */
  ghost predicate OccursAt(s: string, sub: string, i: int) {
    0 <= i <= |s| - |sub| && s[i..i + |sub|] == sub
  }

  /** `Contains` agrees with the occurrence-at-an-index definition. */
  lemma {:induction false} ContainsOccurrence(s: string, sub: string)
    ensures Contains(s, sub) <==> exists i :: OccursAt(s, sub, i)
    decreases |s|
  {
    if sub <= s {
      assert OccursAt(s, sub, 0);
    } else if |s| > 0 {
      ContainsOccurrence(s[1..], sub);
      if Contains(s[1..], sub) {
        var i :| OccursAt(s[1..], sub, i);
        assert s[1..][i..i + |sub|] == s[i + 1..i + 1 + |sub|];
        assert OccursAt(s, sub, i + 1);
      }
      if exists i :: OccursAt(s, sub, i) {
        var i :| OccursAt(s, sub, i);
        if i > 0 {
          assert s[1..][i - 1..i - 1 + |sub|] == s[i..i + |sub|];
          assert OccursAt(s[1..], sub, i - 1);
        }
      }
    }
  }

  /** `s.indexOf(c)`: the first position of `c`, or -1. */
  function IndexOf(s: string, c: char): (r: int)
    ensures -1 <= r < |s|
    ensures r == -1 <==> c !in s
    ensures r >= 0 ==> s[r] == c && c !in s[..r]
  {
    if |s| == 0 then -1
    else if s[0] == c then 0
    else
      var r := IndexOf(s[1..], c);
      assert s == [s[0]] + s[1..];
      if r == -1 then -1 else
        assert s[..r + 1] == [s[0]] + s[1..][..r];
        r + 1
  }

  /** `s.lastIndexOf(c)`: the last position of `c`, or -1. */
  function LastIndexOf(s: string, c: char): (r: int)
    ensures -1 <= r < |s|
    ensures r == -1 <==> c !in s
    ensures r >= 0 ==> s[r] == c && c !in s[r + 1..]
  {
    if |s| == 0 then -1
    else if s[|s| - 1] == c then |s| - 1
    else
      var t := s[..|s| - 1];
      var r := LastIndexOf(t, c);
      assert forall j :: 0 <= j < |t| ==> s[j] == t[j];
      assert c in s <==> c in t by {
        if c in s {
          var j :| 0 <= j < |s| && s[j] == c;
          assert t[j] == c;
        }
      }
      assert r >= 0 ==> s[r + 1..] == t[r + 1..] + [s[|s| - 1]];
      r
  }

  // ---------------------------------------------------------------------------
  // split and join

  /** `s.split(sep)` for a one-character separator: the maximal pieces of `s`
      that do not contain `sep`, always at least one. */
  function Split(s: string, sep: char): (r: seq<string>)
    ensures |r| >= 1
    ensures forall i :: 0 <= i < |r| ==> sep !in r[i]
    decreases |s|
  {
    var k := IndexOf(s, sep);
    if k == -1 then [s] else [s[..k]] + Split(s[k + 1..], sep)
  }

  /** `parts.join(sep)`; the empty list joins to the empty string. */
  function Join(parts: seq<string>, sep: string): string
  {
    if |parts| == 0 then []
    else if |parts| == 1 then parts[0]
    else parts[0] + sep + Join(parts[1..], sep)
  }

  /** Joining the pieces of a split with the separator gives back the string. */
  lemma {:induction false} JoinSplit(s: string, sep: char)
    ensures Join(Split(s, sep), [sep]) == s
    decreases |s|
  {
    var k := IndexOf(s, sep);
    if k != -1 {
      var tail := s[k + 1..];
      assert Split(s, sep) == [s[..k]] + Split(tail, sep);
      JoinSplit(tail, sep);
      JoinCons(s[..k], Split(tail, sep), [sep]);
      Reassemble(s, k);
    } else {
      assert Split(s, sep) == [s];
    }
  }

  /** Cutting a string around one position and gluing the parts back
      gives the string. */
  lemma Reassemble(s: string, k: nat)
    requires k < |s|
    ensures s[..k] + [s[k]] + s[k + 1..] == s
  {
    var t := s[..k] + [s[k]] + s[k + 1..];
    forall i | 0 <= i < |s| ensures t[i] == s[i] {
      if i < k {} else if i == k {} else {}
    }
  }

  /** Joining a piece in front of a non-empty list puts the separator
      between them. */
  lemma JoinCons(p: string, parts: seq<string>, sep: string)
    requires |parts| >= 1
    ensures Join([p] + parts, sep) == p + sep + Join(parts, sep)
  {
    assert ([p] + parts)[1..] == parts;
  }

  /** Splitting a join of separator-free pieces gives back the pieces. */
  lemma {:induction false} SplitJoin(parts: seq<string>, sep: char)
    requires |parts| >= 1
    requires forall i :: 0 <= i < |parts| ==> sep !in parts[i]
    ensures Split(Join(parts, [sep]), sep) == parts
    decreases |parts|
  {
    if |parts| == 1 {
      assert IndexOf(parts[0], sep) == -1;
    } else {
      var p := parts[0];
      var rest := Join(parts[1..], [sep]);
      JoinCons(p, parts[1..], [sep]);
      assert parts == [p] + parts[1..];
      SplitAfterPiece(p, rest, sep);
      SplitJoin(parts[1..], sep);
    }
  }

  /** A separator-free piece, the separator, and the rest split into the
      piece followed by the split of the rest. */
  lemma SplitAfterPiece(p: string, rest: string, sep: char)
    requires sep !in p
    ensures Split(p + [sep] + rest, sep) == [p] + Split(rest, sep)
  {
    var s := p + [sep] + rest;
    assert s[|p|] == sep;
    assert s[..|p|] == p;
    assert IndexOf(s, sep) == |p|;
    assert s[|p| + 1..] == rest;
  }

  // ---------------------------------------------------------------------------
  // String(n) for n >= 0

  function DigitChar(d: nat): (c: char)
    requires d < 10
    ensures IsDigit(c)
  {
    ['0', '1', '2', '3', '4', '5', '6', '7', '8', '9'][d]
  }

  function DigitValue(c: char): (d: nat)
    requires IsDigit(c)
    ensures d < 10
  {
    (c as int - '0' as int) as nat
  }

  /** The value of a string of decimal digits (the empty string is 0). */
  function DecimalValue(s: string): nat
    requires AllDigits(s)
  {
    if |s| == 0 then 0 else DecimalValue(s[..|s| - 1]) * 10 + DigitValue(s[|s| - 1])
  }

  /** `String(n)`: the decimal numeral of `n`, without leading zeros. */
  function NatToString(n: nat): (r: string)
    ensures |r| >= 1 && AllDigits(r)
    ensures r[0] == '0' ==> n == 0
  {
    if n < 10 then [DigitChar(n)]
    else NatToString(n / 10) + [DigitChar(n % 10)]
  }

  /** Reading back the numeral of `n` gives `n`. */
  lemma {:induction false} DecimalOfNatToString(n: nat)
    ensures DecimalValue(NatToString(n)) == n
  {
    if n >= 10 {
      var r := NatToString(n);
      DecimalOfNatToString(n / 10);
      assert r[..|r| - 1] == NatToString(n / 10);
      assert DigitValue(r[|r| - 1]) == n % 10 by {
        var d := n % 10;
        assert r[|r| - 1] == DigitChar(d);
        assert d == 0 || d == 1 || d == 2 || d == 3 || d == 4 || d == 5 || d == 6 || d == 7 || d == 8 || d == 9;
      }
    } else {
      assert DigitValue(DigitChar(n)) == n by {
        assert n == 0 || n == 1 || n == 2 || n == 3 || n == 4 || n == 5 || n == 6 || n == 7 || n == 8 || n == 9;
      }
    }
  }

  /** Distinct numbers have distinct numerals. */
  lemma NatToStringInjective(m: nat, n: nat)
    requires NatToString(m) == NatToString(n)
    ensures m == n
  {
    DecimalOfNatToString(m);
    DecimalOfNatToString(n);
  }

  // ---------------------------------------------------------------------------
  // length

  /** JavaScript's `length`: the number of UTF-16 code units, so a code
      point above U+FFFF counts twice. */
  function Utf16Length(s: string): (n: nat)
    ensures |s| <= n <= 2 * |s|
  {
    if |s| == 0 then 0
    else (if s[0] as int > 0xFFFF then 2 else 1) + Utf16Length(s[1..])
  }
}

=== FILE: types.dfy ===
/** The records the pipeline passes between its stages. */
module Types {

  /** One extracted fact (`HighYieldPoint`): `id` is the position it was
      parsed from, `point` its text. */
  datatype HighYieldPoint = HighYieldPoint(id: string, point: string)

  /** One cloze flashcard. `front` carries the cloze deletions, `back` the
      answer; `explanation` is filled with a copy of `back` when the card is
      parsed. */
  datatype ClozeCard = ClozeCard(id: string, front: string, back: string, explanation: string)
}

=== FILE: wrappers.dfy ===
/** An optional value, and a value-or-error result (the model's stand-in
    for a thrown exception). */
module Wrappers {

  datatype Option<+T> = None | Some(value: T)

  datatype Result<+R, +E> = Success(value: R) | Failure(error: E)
}
